=== FILE: README.md ===
# Application links and stored persons

A model of two parts of an address-book application.

**Launching contact links.** `ApplicationLinkLauncher` turns a person's email address, Telegram handle or GitHub user name into a link:
- `mailto:` followed by the address;
- `https://t.me/` followed by the handle;
- `http://github.com/` followed by the user name.

It parses the link as a `java.net.URI` and hands it to the desktop's `browse`. The outcome comes back as an `ApplicationLinkResult`: a success flag and a message, "Launched EMAIL successfully." or "Failed to launch EMAIL.".

**Storing persons.** `JsonAdaptedPerson` is the stored form of a person. It is built from a `Person`, or from the stored fields, where any field may be null. `toModelType` converts it back into a `Person` through a fixed sequence of checks, throwing at the first that fails:
1. every tag, in list order;
2. name missing, then name invalid;
3. phone missing, then phone invalid;
4. email, Telegram and GitHub;
5. the preferred mode, against the available modes.

The available modes are PHONE always, plus each of EMAIL, TELEGRAM and GITHUB whose field holds non-blank text.

Modules:
- `Wrappers`: `Option`, `Result`.
- `JavaText`: `String.format` with one `%s`, and `String.isBlank`.
- `Uris`: the strings `new URI(String)` accepts.
- `LinkResults`: `ApplicationLinkResult`.
- `LinkLauncher`: the launcher and the desktop.
- `PersonModel`: `Person` and the value classes it is made of.
- `JsonStorage`: `JsonAdaptedPerson`.

The state the source mutates is modelled as classes:
- The launcher's static desktop handle is the field `desktop` of an `ApplicationLinkLauncher` object. Its static initialiser is the constructor.
- `Desktop` records every URI `browse` was called with.
- `JsonAdaptedPerson` keeps its final fields as constants and its tag list as a field its constructors fill.

Each method is proved equal to a pure function (`Launch`, `ToModel`, `AvailableModes`), and the properties are proved about those functions.

Two kinds of behaviour are not part of this model and are passed in as functions, so every property holds whatever they do:
- the value classes' validators and converters (`ModelApi`): `Name.isValidName`, `Phone.isValidPhone`, `Email.isValidEmail`, `Telegram.isValidTelegram`, `Github.isValidGithub`, `PreferredCommunicationMode.isValidMode` and `of`, and `JsonAdaptedTag`'s constructor and `toModelType`;
- how the host desktop answers `browse` (`Desktop.respond`).

`LinkLauncher.TelegramClient` and `LinkLauncher.TelegramClientWithoutDesktop` replay the launcher tests' scenario with a mock desktop that always browses successfully:
- with that desktop set, a Telegram launch succeeds and browses the link exactly once;
- after `setDesktop(null)`, the same launch fails and browses nothing.

## Model

| member | source | states |
|---|---|---|
| LinkResults.GettersReturnConstructorArguments | src/main/java/seedu/address/logic/util/ApplicationLinkResult.java:7-18 | the constructor takes any flag and message, and `isSuccess`/`getMessage` return exactly those |
| LinkLauncher.BuildLink | src/main/java/seedu/address/logic/util/ApplicationLinkLauncher.java:16-18 | a launch link is the type's prefix followed by the identifier, unchanged and unvalidated |
| LinkLauncher.BuildLinkInjective | src/main/java/seedu/address/logic/util/ApplicationLinkLauncher.java:29-39 | different (type, identifier) pairs never produce the same link |
| LinkLauncher.PrefixShape | src/main/java/seedu/address/logic/util/ApplicationLinkLauncher.java:16-18 | each prefix is a well-formed scheme, a ':', and, for the two web links, a "//" path of plain path characters |
| LinkLauncher.BuiltLinkParses | src/main/java/seedu/address/logic/util/ApplicationLinkLauncher.java:29-39 | a link built from an identifier of path characters parses, provided a mail address is non-empty and not "//" |
| LinkLauncher.MailLinkParses | src/main/java/seedu/address/logic/util/ApplicationLinkLauncher.java:29-31 | a mail link whose address does not start with '/' and holds no '#' parses exactly when the address is non-empty and made of URI characters, '[' and ']' included |
| LinkLauncher.BracketedMailLaunches | src/main/java/seedu/address/logic/util/ApplicationLinkLauncher.java:29-49 | "mailto:[x]" parses, and with a desktop that browses it `launchEmail("[x]")` returns success |
| LinkLauncher.WebLinkBracketRejected | src/main/java/seedu/address/logic/util/ApplicationLinkLauncher.java:33-39 | a Telegram or GitHub link whose identifier holds '[' or ']' and no query or fragment is rejected, since brackets are not path characters |
| LinkLauncher.EmptyEmailUnparsable | src/main/java/seedu/address/logic/util/ApplicationLinkLauncher.java:29-31 | `launchEmail("")` builds "mailto:", which `new URI` rejects |
| LinkLauncher.SuccessTemplateFills | src/main/java/seedu/address/logic/util/ApplicationLinkLauncher.java:20 | formatting the success template puts the argument between "Launched " and " successfully." |
| LinkLauncher.FailureTemplateFills | src/main/java/seedu/address/logic/util/ApplicationLinkLauncher.java:21 | formatting the failure template puts the argument between "Failed to launch " and "." |
| LinkLauncher.MessagesSpelledOut | src/main/java/seedu/address/logic/util/ApplicationLinkLauncher.java:45-47 | the result messages, spelled out for each application type |
| LinkLauncher.MessagesDistinct | src/main/java/seedu/address/logic/util/ApplicationLinkLauncher.java:45-47 | no success message equals a failure message, and each message determines its application type |
| LinkLauncher.ParseToUri | src/main/java/seedu/address/logic/util/ApplicationLinkLauncher.java:51-53 | `parseToUri` succeeds exactly on the strings `new URI` accepts (scheme, opaque part or path and query, fragment, with `[`/`]` allowed outside the path), and the URI keeps the link's text |
| LinkLauncher.Launch | src/main/java/seedu/address/logic/util/ApplicationLinkLauncher.java:41-49 | success exactly when the link parses and `browse` returns; only an UnsupportedOperationException from `browse` escapes; the message is the success or failure message of the type, according to the flag |
| LinkLauncher.UnparsableLinkFails | src/main/java/seedu/address/logic/util/ApplicationLinkLauncher.java:42-48 | a link that does not parse gives the failure result, whatever the desktop does |
| LinkLauncher.NoDesktopFails | src/main/java/seedu/address/logic/util/ApplicationLinkLauncher.java:55-62 | with no desktop handle every launch returns the failure result and nothing escapes |
| LinkLauncher.IllegalLinkGivesFailureMessage | src/test/java/seedu/address/logic/util/ApplicationLinkLauncherTest.java:101-115 | launching "ht!tp://invalid-uri" as GITHUB returns failure with "Failed to launch GITHUB." |
| LinkLauncher.BrowseCalls | src/main/java/seedu/address/logic/util/ApplicationLinkLauncher.java:42-44 | a launch browses at most one URI: the parsed link, and only when it parses |
| LinkLauncher.Desktop.constructor | src/main/java/seedu/address/logic/util/ApplicationLinkLauncher.java:10 | a desktop that has not yet browsed anything |
| LinkLauncher.Desktop.Browse | src/main/java/seedu/address/logic/util/ApplicationLinkLauncher.java:58 | `browse` answers as the host does and appends the URI to the browse record |
| LinkLauncher.ApplicationLinkLauncher.constructor | src/main/java/seedu/address/logic/util/ApplicationLinkLauncher.java:10 | the handle is the host's desktop when desktops are supported, and null otherwise |
| LinkLauncher.ApplicationLinkLauncher.SetDesktop | src/main/java/seedu/address/logic/util/ApplicationLinkLauncher.java:12-14 | `setDesktop` replaces the handle and changes nothing else |
| LinkLauncher.ApplicationLinkLauncher.OpenLink | src/main/java/seedu/address/logic/util/ApplicationLinkLauncher.java:55-62 | with a handle, browses the URI once and reports its outcome; without one, fails with IOException |
| LinkLauncher.ApplicationLinkLauncher.LaunchApplicationLink | src/main/java/seedu/address/logic/util/ApplicationLinkLauncher.java:41-49 | the outcome is `Launch` on the current handle, and the browse record grows by exactly `BrowseCalls(link)` |
| LinkLauncher.ApplicationLinkLauncher.LaunchEmail | src/main/java/seedu/address/logic/util/ApplicationLinkLauncher.java:29-31 | launches the "mailto:" link of the address as EMAIL, and browses exactly the URIs that launch browses; a null address is concatenated as "null" |
| LinkLauncher.ApplicationLinkLauncher.LaunchTelegram | src/main/java/seedu/address/logic/util/ApplicationLinkLauncher.java:33-35 | launches the "https://t.me/" link of the handle as TELEGRAM, and browses exactly the URIs that launch browses; a null handle is concatenated as "null" |
| LinkLauncher.ApplicationLinkLauncher.LaunchGithub | src/main/java/seedu/address/logic/util/ApplicationLinkLauncher.java:37-39 | launches the "http://github.com/" link of the user name as GITHUB, and browses exactly the URIs that launch browses; a null user name is concatenated as "null" |
| LinkLauncher.NullEmailLaunches | src/main/java/seedu/address/logic/util/ApplicationLinkLauncher.java:29-31 | a null email builds "mailto:null", which parses, so with a desktop that browses it launches successfully |
| LinkLauncher.BracketedHostFails | src/main/java/seedu/address/logic/util/ApplicationLinkLauncher.java:41-53 | "http://[::1]/" given straight to the launcher as GITHUB gives the failure result, because the model rejects a bracketed host (a gap listed below) |
| LinkLauncher.TelegramClient | src/test/java/seedu/address/logic/util/ApplicationLinkLauncherTest.java:58-78 | with a mock desktop set that always browses, launching a handle of path characters returns the TELEGRAM success result and browses that handle's link exactly once |
| LinkLauncher.TelegramClientWithoutDesktop | src/main/java/seedu/address/logic/util/ApplicationLinkLauncher.java:55-62 | after `setDesktop(null)`, launching any handle, null included, returns the TELEGRAM failure result and the mock desktop browses nothing |
| Uris.AbsoluteUriFromParts | src/main/java/seedu/address/logic/util/ApplicationLinkLauncher.java:51-53 | with a well-formed scheme and no fragment, `scheme:ssp` is accepted exactly when the part after ':' is non-empty and is either a path-and-query (starting with '/', not a bare "//") or opaque URI characters |
| Uris.OpaqueUriParses | src/main/java/seedu/address/logic/util/ApplicationLinkLauncher.java:51-53 | after a scheme, a part not starting with '/' and holding no '#' is accepted exactly when it is non-empty URI characters, brackets included |
| Uris.PrefixedUriParses | src/main/java/seedu/address/logic/util/ApplicationLinkLauncher.java:51-53 | a scheme, ':', a plain fixed path and path characters is accepted when something other than a bare "//" follows the ':' |
| Uris.PathBracketRejected | src/main/java/seedu/address/logic/util/ApplicationLinkLauncher.java:51-53 | '[' or ']' in the path of an absolute URI without query or fragment makes it rejected |
| Uris.PrefixedBracketRejected | src/main/java/seedu/address/logic/util/ApplicationLinkLauncher.java:51-53 | a scheme, ':', a fixed '/' path and text with a bracket but no query or fragment is rejected |
| Uris.BareSchemeRejected | src/main/java/seedu/address/logic/util/ApplicationLinkLauncher.java:51-53 | a scheme followed by ':' alone is rejected |
| Uris.IllegalSchemeRejected | src/main/java/seedu/address/logic/util/ApplicationLinkLauncher.java:51-53 | text before the first ':' that is not a scheme name makes the string rejected, where that ':' comes before any '/', '?' or '#' |
| Uris.IllegalSchemeCharacterRejected | src/test/java/seedu/address/logic/util/ApplicationLinkLauncherTest.java:104-106 | "ht!tp://invalid-uri" is rejected, because '!' cannot occur in a scheme |
| JsonStorage.MissingFieldMessageSpelledOut | src/main/java/seedu/address/storage/JsonAdaptedPerson.java:28 | the missing-field message is "Person's " + field name + " field is missing!" |
| JsonStorage.AvailableModes | src/main/java/seedu/address/storage/JsonAdaptedPerson.java:137-159 | PHONE is always available, each other mode exactly when its field is non-null and not blank, and NONE never |
| JsonStorage.AvailableModesSize | src/main/java/seedu/address/storage/JsonAdaptedPerson.java:137-159 | between one and four modes are available |
| JsonStorage.FirstInvalidTagUnique | src/main/java/seedu/address/storage/JsonAdaptedPerson.java:81-84 | at most one tag is the first that fails to convert |
| JsonStorage.ConvertTags | src/main/java/seedu/address/storage/JsonAdaptedPerson.java:81-84 | succeeds exactly when every tag converts, keeping list order; otherwise the error names the first tag that fails |
| JsonStorage.ToModel | src/main/java/seedu/address/storage/JsonAdaptedPerson.java:80-129 | a person comes back only when name and phone are present and every validator accepts, and it holds exactly the stored fields, the mode and the set of converted tags |
| JsonStorage.FirstFailureAppend | src/main/java/seedu/address/storage/JsonAdaptedPerson.java:80-129 | the first failure of two check lists in a row is the first list's, if it has one, else the second's |
| JsonStorage.FirstFailureStep | src/main/java/seedu/address/storage/JsonAdaptedPerson.java:80-129 | the first failure from a position on is that check's error if it fails, else the first failure after it |
| JsonStorage.FieldChecksFirstFailure | src/main/java/seedu/address/storage/JsonAdaptedPerson.java:86-124 | the field checks, taken as a list, fail with exactly the error `toModelType` raises for the fields |
| JsonStorage.TagChecksFirstFailure | src/main/java/seedu/address/storage/JsonAdaptedPerson.java:81-84 | the tag checks, taken as a list, fail with exactly the error of the tag conversion |
| JsonStorage.ToModelFollowsCheckOrder | src/main/java/seedu/address/storage/JsonAdaptedPerson.java:80-129 | conversion fails exactly when some check fails, with the error of the first failing check in source order (tags, name, phone, email, telegram, github, mode) |
| JsonStorage.OnlyNameAndPhoneCanBeMissing | src/main/java/seedu/address/storage/JsonAdaptedPerson.java:86-96 | a missing-field error names only Name or Phone, and each occurs exactly when that field is the first problem |
| JsonStorage.OptionalFieldsNotRequired | src/test/java/seedu/address/storage/JsonAdaptedPersonTest.java:51-77 | null or other accepted email, telegram, github and mode values give the same person with only those fields replaced |
| JsonStorage.RoundTrip | src/test/java/seedu/address/storage/JsonAdaptedPersonTest.java:45-49 | storing a person and converting it back gives the same person, when its fields are valid and its tags convert both ways |
| JsonStorage.JsonAdaptedPerson.constructor | src/main/java/seedu/address/storage/JsonAdaptedPerson.java:42-58 | the fields as given; a null tag list leaves the list empty, any other list is copied in order |
| JsonStorage.AdaptTags | src/main/java/seedu/address/storage/JsonAdaptedPerson.java:70-72 | as many adapted tags as tags, following some ordering of the person's tag set that lists every tag exactly once, position by position |
| JsonStorage.AdaptedMembers | src/main/java/seedu/address/storage/JsonAdaptedPerson.java:70-72 | tags adapted along such an ordering are as many as the set's tags, and are exactly the adapted forms of its members |
| JsonStorage.JsonAdaptedPerson.FromPerson | src/main/java/seedu/address/storage/JsonAdaptedPerson.java:63-73 | each field of the person, the mode's name, and one stored tag per tag: each tag of the set adapted exactly once, in some order |
| JsonStorage.JsonAdaptedPerson.GetAvailableModes | src/main/java/seedu/address/storage/JsonAdaptedPerson.java:137-159 | returns `AvailableModes` of the stored email, telegram and github |
| JsonStorage.JsonAdaptedPerson.ToModelType | src/main/java/seedu/address/storage/JsonAdaptedPerson.java:80-129 | returns exactly `ToModel` of the stored fields |

## Left out

- `LinkLauncher.ParseToUri` rejects a bracketed IPv6 host (RFC 2732), such as "http://[::1]/", which `new URI` accepts. `Uris.ParsesAsUri` checks an authority only as path characters and does not split it into user information, host and port. Everywhere else it follows the parser of `java.net.URI`: brackets are accepted in an opaque part, a query and a fragment, and rejected in a path. For links built by `launchEmail`, `launchTelegram` and `launchGithub` the Telegram and GitHub prefixes fix the authority (`t.me`, `github.com`), so there the gap can only show in a mail address that starts with "//". A link passed straight to `launchApplicationLink` hits the gap with any bracketed host: `Launch("http://[::1]/", GITHUB, Some(AlwaysBrowses))` is a failure (`LinkLauncher.BracketedHostFails`), where the code succeeds.
- `Desktop.browse` is how the host answers. It is a function of the URI (`Desktop.respond`), not a foreign call with side effects, so opening a browser is not modelled.
- `Desktop.isDesktopSupported()` and `Desktop.getDesktop()` are host queries. They become parameters of the launcher's constructor.
- The validators and converters of `Name`, `Phone`, `Email`, `Telegram`, `Github`, `PreferredCommunicationMode`, `Tag` and `JsonAdaptedTag` are not part of this model. They are parameters (`ModelApi`), and their error messages are reduced to the error kind (`NameConstraints`, …).
- `PreferredCommunicationMode` lists PHONE, EMAIL, TELEGRAM and GITHUB, which the core uses, plus NONE. NONE stands for the "no preference" value that `allowNone` admits; the enum's own source is not part of this model.
- `JsonStorage.JsonAdaptedPerson.FromPerson`: the order of the stored tags is the iteration order of a hash set, which is unspecified. The constructor states that each tag is adapted exactly once, along some ordering of the set, but not which ordering.
- The Jackson annotations and the reading and writing of JSON files are not part of this model. `IllegalValueException` is an `Err` carrying a `PersonError`.
- `LinkLauncher.ApplicationLinkLauncher.LaunchApplicationLink`: an `UnsupportedOperationException` from `browse` escapes the launcher (the `catch` names only `URISyntaxException` and `IOException`). The model follows the code: such a launch has the outcome `ThrowsUnsupportedOperation`.
- `LinkLauncher.ApplicationLinkLauncher.LaunchEmail` browses the "mailto:" URI, as the code does. The launcher's email test expects `Desktop.mail` instead; no mail action is modelled.
- The remaining pieces are not part of this model:
  - the user-interface buttons that call the launcher (`PersonCard`);
  - the desktop-detection helpers and the fallback through operating-system commands (`DesktopAPI`, `RealDesktopWrapper`), whose sources are not part of this model and which the launcher shown here never calls;
  - the `attemptOpenWithDesktop` path that the launcher's tests exercise.
- `JavaText.Format` handles only templates with one `%s` (all the core uses), and prints an enum constant by its name.

=== FILE: java_text.dfy ===
/**
 * The two pieces of java.lang.String behaviour the core relies on:
 * `String.format` with a single `%s` specifier, and `String.isBlank`.
 */
module JavaText {
  import opened Wrappers

  /** The index of the first '%' in `s`, or `|s|` when there is none. */
  function PercentIndex(s: string): (i: nat)
    ensures i <= |s|
    ensures forall j :: 0 <= j < i ==> s[j] != '%'
    ensures i < |s| ==> s[i] == '%'
  {
    if s == [] || s[0] == '%' then 0 else 1 + PercentIndex(s[1..])
  }

  /**
   * `String.format(template, arg)` for a template whose only format specifier is one `%s`:
   * that `%s` is replaced by `arg` and the text around it is copied unchanged.
   */
  function Format(template: string, arg: string): (s: string)
  {
    var i := PercentIndex(template);
    if i + 1 < |template| && template[i + 1] == 's' then template[..i] + arg + template[i + 2..]
    else template
  }

  /** Filling a `%s` template puts the argument between the text before and after the specifier. */
  lemma FormatFills(pre: string, post: string, arg: string)
    requires '%' !in pre
    ensures Format(pre + "%s" + post, arg) == pre + arg + post
  {
    var t := pre + "%s" + post;
    var i := PercentIndex(t);
    assert i == |pre| by {
      assert t[|pre|] == '%';
    }
    assert t[..i] == pre && t[i + 2..] == post;
  }

  /** The same, for a template named by a constant. */
  lemma FormatFillsTemplate(template: string, pre: string, post: string, arg: string)
    requires template == pre + "%s" + post
    requires '%' !in pre
    ensures Format(template, arg) == pre + arg + post
  {
    FormatFills(pre, post, arg);
  }

  /** A `String` operand of `+` as string concatenation renders it: a null reference becomes "null". */
  function Rendered(s: Option<string>): (r: string)
  {
    if s.Some? then s.value else "null"
  }

  /** `Character.isWhitespace`: Unicode space separators other than the no-break spaces, the line and
      paragraph separators, and the ASCII controls TAB, LF, VT, FF, CR and FS, GS, RS, US. */
  predicate IsWhitespace(c: char): (b: bool)
  {
    c == ' ' || c == '\U{1680}' || ('\U{2000}' <= c <= '\U{200A}' && c != '\U{2007}') ||
    c == '\U{205F}' || c == '\U{3000}' || c == '\U{2028}' || c == '\U{2029}' ||
    ('\U{0009}' <= c <= '\U{000D}') || ('\U{001C}' <= c <= '\U{001F}')
  }

  /** `String.isBlank`: empty, or whitespace only. */
  predicate IsBlank(s: string)
  {
    forall i :: 0 <= i < |s| ==> IsWhitespace(s[i])
  }

  /** `s != null && !s.isBlank()` */
  predicate HasText(s: Option<string>)
  {
    s.Some? && !IsBlank(s.value)
  }
}

=== FILE: json_storage.dfy ===
/**
 * `JsonAdaptedPerson`: the stored (JSON) form of a person, and its conversion back into a
 * `Person` through an ordered chain of checks that stops at the first failure.
 */
module JsonStorage {
  import opened Wrappers
  import opened JavaText
  import opened PersonModel

  const MissingFieldMessageFormat := "Person's %s field is missing!"

  /** `Name.class.getSimpleName()` and `Phone.class.getSimpleName()` */
  const NameClassName := "Name"
  const PhoneClassName := "Phone"

  /** Why `toModelType` throws IllegalValueException: the first invalid tag, a missing name or
      phone, or the constraint of the field that failed its validator. */
  datatype PersonError =
    | InvalidTag(tag: JsonAdaptedTag)
    | MissingField(fieldName: string)
    | NameConstraints
    | PhoneConstraints
    | EmailConstraints
    | TelegramConstraints
    | GithubConstraints
    | ModeConstraints

  /** The message of a missing-field error. */
  function MissingFieldMessage(fieldName: string): (msg: string)
  {
    Format(MissingFieldMessageFormat, fieldName)
  }

  lemma MissingFieldMessageSpelledOut(fieldName: string)
    ensures MissingFieldMessage(fieldName) == "Person's " + fieldName + " field is missing!"
  {
    FormatFillsTemplate(MissingFieldMessageFormat, "Person's ", " field is missing!", fieldName);
  }

  /** The fields of a stored person; `None` is a null field. */
  datatype StoredPerson = StoredPerson(
    name: Option<string>,
    phone: Option<string>,
    email: Option<string>,
    telegram: Option<string>,
    github: Option<string>,
    preferredMode: Option<string>,
    tags: seq<JsonAdaptedTag>)

  /** `getAvailableModes`: PHONE always, and each optional mode whose field holds text. */
  function AvailableModes(email: Option<string>, telegram: Option<string>, github: Option<string>)
    : (modes: set<PreferredCommunicationMode>)
    ensures PHONE in modes
    ensures EMAIL in modes <==> HasText(email)
    ensures TELEGRAM in modes <==> HasText(telegram)
    ensures GITHUB in modes <==> HasText(github)
    ensures NONE !in modes
  {
    {PHONE} + (if HasText(email) then {EMAIL} else {})
            + (if HasText(telegram) then {TELEGRAM} else {})
            + (if HasText(github) then {GITHUB} else {})
  }

  /** The available modes number between one (PHONE alone) and four. */
  lemma AvailableModesSize(email: Option<string>, telegram: Option<string>, github: Option<string>)
    ensures 1 <= |AvailableModes(email, telegram, github)| <= 4
  {
    var modes := AvailableModes(email, telegram, github);
    var all := {PHONE, EMAIL, TELEGRAM, GITHUB};
    forall m | m in modes ensures m in all { }
    CardinalityOfSubset(modes, all);
    CardinalityOfSubset({PHONE}, modes);
  }

  lemma {:induction false} CardinalityOfSubset<T>(a: set<T>, b: set<T>)
    requires a <= b
    ensures |a| <= |b|
    decreases |b|
  {
    if a != {} {
      var x :| x in a;
      CardinalityOfSubset(a - {x}, b - {x});
    }
  }

  /** Tag `k` is the first that does not convert. */
  predicate FirstInvalidTagAt(tags: seq<JsonAdaptedTag>, api: ModelApi, k: nat)
  {
    k < |tags| && api.tagToModel(tags[k]).None? &&
    forall j :: 0 <= j < k ==> api.tagToModel(tags[j]).Some?
  }

  lemma FirstInvalidTagUnique(tags: seq<JsonAdaptedTag>, api: ModelApi, k1: nat, k2: nat)
    requires FirstInvalidTagAt(tags, api, k1) && FirstInvalidTagAt(tags, api, k2)
    ensures k1 == k2
  {
  }

  /** Converting the stored tags in order, stopping at the first that throws. */
  function ConvertTags(tags: seq<JsonAdaptedTag>, api: ModelApi): (r: Result<seq<Tag>, PersonError>)
    ensures r.Ok? <==> forall i :: 0 <= i < |tags| ==> api.tagToModel(tags[i]).Some?
    ensures r.Ok? ==> |r.value| == |tags| &&
                      forall i :: 0 <= i < |tags| ==> api.tagToModel(tags[i]) == Some(r.value[i])
    ensures r.Err? ==> exists k: nat :: FirstInvalidTagAt(tags, api, k) && r.error == InvalidTag(tags[k])
  {
    if tags == [] then Ok([])
    else match api.tagToModel(tags[0])
      case None =>
        assert FirstInvalidTagAt(tags, api, 0);
        Err(InvalidTag(tags[0]))
      case Some(t) =>
        match ConvertTags(tags[1..], api)
        case Err(e) =>
          var k: nat :| FirstInvalidTagAt(tags[1..], api, k) && e == InvalidTag(tags[1..][k]);
          assert FirstInvalidTagAt(tags, api, k + 1);
          Err(e)
        case Ok(ts) =>
          assert forall i :: 1 <= i < |tags| ==> tags[i] == tags[1..][i - 1];
          Ok([t] + ts)
  }

  /** `toModelType` on a stored person: tags, then name (missing, invalid), then phone (missing,
      invalid), then email, telegram and github, then the preferred mode against the available
      modes with `allowNone` set. */
  function ToModel(p: StoredPerson, api: ModelApi): (r: Result<Person, PersonError>)
    ensures r.Ok? ==> p.name.Some? && p.phone.Some?
    ensures r.Ok? ==>
      ConvertTags(p.tags, api).Ok? &&
      r.value == Person(Name(p.name.value), Phone(p.phone.value), Email(p.email), Telegram(p.telegram),
                        Github(p.github), api.modeOf(p.preferredMode),
                        set t | t in ConvertTags(p.tags, api).value)
    ensures r.Ok? ==> api.isValidName(p.name.value) && api.isValidPhone(p.phone.value) &&
                      api.isValidEmail(p.email) && api.isValidTelegram(p.telegram) &&
                      api.isValidGithub(p.github) &&
                      api.isValidMode(p.preferredMode, AvailableModes(p.email, p.telegram, p.github), true)
  {
    match ConvertTags(p.tags, api)
    case Err(e) => Err(e)
    case Ok(personTags) =>
      if p.name.None? then Err(MissingField(NameClassName))
      else if !api.isValidName(p.name.value) then Err(NameConstraints)
      else if p.phone.None? then Err(MissingField(PhoneClassName))
      else if !api.isValidPhone(p.phone.value) then Err(PhoneConstraints)
      else if !api.isValidEmail(p.email) then Err(EmailConstraints)
      else if !api.isValidTelegram(p.telegram) then Err(TelegramConstraints)
      else if !api.isValidGithub(p.github) then Err(GithubConstraints)
      else if !api.isValidMode(p.preferredMode, AvailableModes(p.email, p.telegram, p.github), true)
      then Err(ModeConstraints)
      else Ok(Person(Name(p.name.value), Phone(p.phone.value), Email(p.email), Telegram(p.telegram),
                     Github(p.github), api.modeOf(p.preferredMode), set t | t in personTags))
  }

  // ---------------------------------------------------------------------------------------
  // An independent statement of the order: the checks as a list, and the first that fails.

  /** One check of the chain: whether it fails, and the error it then raises. */
  datatype Check = Check(fails: bool, error: PersonError)

  function FirstFailure(checks: seq<Check>): (e: Option<PersonError>)
  {
    if checks == [] then None
    else if checks[0].fails then Some(checks[0].error)
    else FirstFailure(checks[1..])
  }

  /** One check per stored tag, in list order. */
  function TagChecks(tags: seq<JsonAdaptedTag>, api: ModelApi): (checks: seq<Check>)
  {
    seq(|tags|, i requires 0 <= i < |tags| => Check(api.tagToModel(tags[i]).None?, InvalidTag(tags[i])))
  }

  /** The field checks, in the order `toModelType` makes them. */
  function FieldChecks(p: StoredPerson, api: ModelApi): (checks: seq<Check>)
  {
    [ Check(p.name.None?, MissingField(NameClassName)),
      Check(p.name.Some? && !api.isValidName(p.name.value), NameConstraints),
      Check(p.phone.None?, MissingField(PhoneClassName)),
      Check(p.phone.Some? && !api.isValidPhone(p.phone.value), PhoneConstraints),
      Check(!api.isValidEmail(p.email), EmailConstraints),
      Check(!api.isValidTelegram(p.telegram), TelegramConstraints),
      Check(!api.isValidGithub(p.github), GithubConstraints),
      Check(!api.isValidMode(p.preferredMode, AvailableModes(p.email, p.telegram, p.github), true),
            ModeConstraints) ]
  }

  function Checks(p: StoredPerson, api: ModelApi): (checks: seq<Check>)
  {
    TagChecks(p.tags, api) + FieldChecks(p, api)
  }

  lemma {:induction false} FirstFailureAppend(a: seq<Check>, b: seq<Check>)
    ensures FirstFailure(a + b) == if FirstFailure(a).Some? then FirstFailure(a) else FirstFailure(b)
  {
    if a != [] {
      assert (a + b)[0] == a[0];
      assert (a + b)[1..] == a[1..] + b;
      FirstFailureAppend(a[1..], b);
    } else {
      assert a + b == b;
    }
  }

  lemma FirstFailureStep(checks: seq<Check>, k: nat)
    requires k < |checks|
    ensures FirstFailure(checks[k..]) ==
            if checks[k].fails then Some(checks[k].error) else FirstFailure(checks[k + 1..])
  {
    assert checks[k..][0] == checks[k];
    assert checks[k..][1..] == checks[k + 1..];
  }

  /** The first failure of the field checks, one check at a time. */
  lemma FieldChecksFirstFailure(p: StoredPerson, api: ModelApi)
    ensures FirstFailure(FieldChecks(p, api)) ==
            match ToModel(p.(tags := []), api) case Err(e) => Some(e) case Ok(_) => None
  {
    var fc := FieldChecks(p, api);
    assert fc[0..] == fc && fc[8..] == [];
    FirstFailureStep(fc, 0);
    FirstFailureStep(fc, 1);
    FirstFailureStep(fc, 2);
    FirstFailureStep(fc, 3);
    FirstFailureStep(fc, 4);
    FirstFailureStep(fc, 5);
    FirstFailureStep(fc, 6);
    FirstFailureStep(fc, 7);
  }

  lemma {:induction false} TagChecksFirstFailure(tags: seq<JsonAdaptedTag>, api: ModelApi)
    ensures FirstFailure(TagChecks(tags, api)) ==
            match ConvertTags(tags, api) case Err(e) => Some(e) case Ok(_) => None
  {
    if tags != [] {
      assert TagChecks(tags, api)[1..] == TagChecks(tags[1..], api);
      TagChecksFirstFailure(tags[1..], api);
    }
  }

  /** `toModelType` fails exactly when some check of the list fails, with the error of the first. */
  lemma ToModelFollowsCheckOrder(p: StoredPerson, api: ModelApi)
    ensures ToModel(p, api).Err? <==> FirstFailure(Checks(p, api)).Some?
    ensures ToModel(p, api).Err? ==> FirstFailure(Checks(p, api)) == Some(ToModel(p, api).error)
  {
    FirstFailureAppend(TagChecks(p.tags, api), FieldChecks(p, api));
    TagChecksFirstFailure(p.tags, api);
    FieldChecksFirstFailure(p, api);
  }

  // ---------------------------------------------------------------------------------------

  /** Only the name and the phone have a missing-field check. */
  lemma OnlyNameAndPhoneCanBeMissing(p: StoredPerson, api: ModelApi)
    ensures ToModel(p, api) == Err(MissingField(NameClassName)) <==>
              ConvertTags(p.tags, api).Ok? && p.name.None?
    ensures ToModel(p, api) == Err(MissingField(PhoneClassName)) <==>
              ConvertTags(p.tags, api).Ok? && p.name.Some? && api.isValidName(p.name.value) && p.phone.None?
    ensures ToModel(p, api).Err? && ToModel(p, api).error.MissingField? ==>
              ToModel(p, api).error.fieldName in {NameClassName, PhoneClassName}
  {
  }

  /** Email, telegram, github and the preferred mode are judged by their validators alone: any
      values they accept, null included, give the same person with just those fields replaced. */
  lemma OptionalFieldsNotRequired(p: StoredPerson, api: ModelApi, email: Option<string>,
                                  telegram: Option<string>, github: Option<string>, mode: Option<string>)
    requires ToModel(p, api).Ok?
    requires api.isValidEmail(email) && api.isValidTelegram(telegram) && api.isValidGithub(github)
    requires api.isValidMode(mode, AvailableModes(email, telegram, github), true)
    ensures ToModel(p.(email := email, telegram := telegram, github := github, preferredMode := mode), api)
            == Ok(ToModel(p, api).value.(email := Email(email), telegram := Telegram(telegram),
                                          github := Github(github), preferredMode := api.modeOf(mode)))
  {
  }

  /** Storing a person and reading it back gives the same person, when the model classes accept
      its fields and convert its tags and mode back and forth. */
  lemma RoundTrip(person: Person, tags: seq<JsonAdaptedTag>, api: ModelApi)
    requires forall t :: t in person.tags ==> api.tagToModel(api.adaptTag(t)) == Some(t)
    requires forall x :: x in tags <==> exists t :: t in person.tags && x == api.adaptTag(t)
    requires api.isValidName(person.name.fullName) && api.isValidPhone(person.phone.value)
    requires api.isValidEmail(person.email.value) && api.isValidTelegram(person.telegram.value)
    requires api.isValidGithub(person.github.value)
    requires api.modeOf(Some(ModeName(person.preferredMode))) == person.preferredMode
    requires api.isValidMode(Some(ModeName(person.preferredMode)),
                             AvailableModes(person.email.value, person.telegram.value, person.github.value), true)
    ensures ToModel(StoredPerson(Some(person.name.fullName), Some(person.phone.value), person.email.value,
                                 person.telegram.value, person.github.value,
                                 Some(ModeName(person.preferredMode)), tags), api)
            == Ok(person)
  {
    var stored := StoredPerson(Some(person.name.fullName), Some(person.phone.value), person.email.value,
                               person.telegram.value, person.github.value,
                               Some(ModeName(person.preferredMode)), tags);
    forall i | 0 <= i < |tags| ensures api.tagToModel(tags[i]).Some? {
      assert tags[i] in tags;
    }
    var converted := ConvertTags(tags, api).value;
    forall t ensures t in converted <==> t in person.tags {
      if t in converted {
        var i :| 0 <= i < |converted| && converted[i] == t;
        assert tags[i] in tags;
        var u :| u in person.tags && tags[i] == api.adaptTag(u);
        assert api.tagToModel(tags[i]) == Some(u);
      }
      if t in person.tags {
        var x := api.adaptTag(t);
        assert x in tags;
        var i :| 0 <= i < |tags| && tags[i] == x;
        assert converted[i] == t;
      }
    }
    assert (set t | t in converted) == person.tags;
  }

  /** `order` lists every element of `s` exactly once. */
  ghost predicate IsOrdering(order: seq<Tag>, s: set<Tag>)
  {
    |order| == |s| && forall t :: t in order <==> t in s
  }

  /** `stored` holds one adapted tag per entry of `order`, position by position. */
  predicate AdaptedInOrder(stored: seq<JsonAdaptedTag>, order: seq<Tag>, api: ModelApi)
  {
    |stored| == |order| && forall i :: 0 <= i < |order| ==> stored[i] == api.adaptTag(order[i])
  }

  /** Taking `t` out of the tags still to adapt and appending it to the ordering of those done. */
  lemma OrderingStep(order: seq<Tag>, source: set<Tag>, remaining: set<Tag>, t: Tag)
    requires IsOrdering(order, source - remaining) && t in remaining && remaining <= source
    ensures IsOrdering(order + [t], source - (remaining - {t}))
  {
    assert source - (remaining - {t}) == (source - remaining) + {t};
    assert forall u :: u in order + [t] <==> u in order || u == t;
  }

  /** Appending the adapted form of `t` keeps the stored tags in step with the ordering. */
  lemma AdaptedStep(adapted: seq<JsonAdaptedTag>, order: seq<Tag>, t: Tag, api: ModelApi)
    requires AdaptedInOrder(adapted, order, api)
    ensures AdaptedInOrder(adapted + [api.adaptTag(t)], order + [t], api)
  {
  }

  /** Tags adapted along an ordering of a set: one stored tag per tag, and exactly the adapted tags. */
  lemma AdaptedMembers(stored: seq<JsonAdaptedTag>, order: seq<Tag>, s: set<Tag>, api: ModelApi)
    requires IsOrdering(order, s) && AdaptedInOrder(stored, order, api)
    ensures |stored| == |s|
    ensures forall x :: x in stored <==> exists t :: t in s && x == api.adaptTag(t)
  {
    forall x ensures x in stored <==> exists t :: t in s && x == api.adaptTag(t) {
      if x in stored {
        var i :| 0 <= i < |stored| && stored[i] == x;
        assert order[i] in order;
      }
      if exists t :: t in s && x == api.adaptTag(t) {
        var t :| t in s && x == api.adaptTag(t);
        var i :| 0 <= i < |order| && order[i] == t;
        assert stored[i] == x;
      }
    }
  }

  /** Adapts every tag of the person's tag set, one stored tag per tag, in the set's iteration
      order (`order`, which the set leaves unspecified). */
  method AdaptTags(source: set<Tag>, api: ModelApi) returns (adapted: seq<JsonAdaptedTag>, ghost order: seq<Tag>)
    ensures IsOrdering(order, source) && AdaptedInOrder(adapted, order, api)
    ensures |adapted| == |source|
  {
    adapted, order := [], [];
    var remaining := source;
    while remaining != {}
      invariant remaining <= source
      invariant IsOrdering(order, source - remaining)
      invariant AdaptedInOrder(adapted, order, api)
      decreases |remaining|
    {
      var t :| t in remaining;
      OrderingStep(order, source, remaining, t);
      AdaptedStep(adapted, order, t, api);
      adapted := adapted + [api.adaptTag(t)];
      order := order + [t];
      remaining := remaining - {t};
    }
    assert source - remaining == source;
  }

  /**
   * The stored person. The fields are final; `tags` is the list the constructors fill.
   */
  class JsonAdaptedPerson {
    const name: Option<string>
    const phone: Option<string>
    const email: Option<string>
    const telegram: Option<string>
    const github: Option<string>
    const preferredCommunicationMode: Option<string>
    var tags: seq<JsonAdaptedTag>

    /** The JSON constructor: a null tag list leaves the list empty, any other is copied in order. */
    constructor(name: Option<string>, phone: Option<string>, email: Option<string>,
                telegram: Option<string>, github: Option<string>,
                preferredCommunicationMode: Option<string>, tags: Option<seq<JsonAdaptedTag>>)
      ensures this.name == name && this.phone == phone && this.email == email
      ensures this.telegram == telegram && this.github == github
      ensures this.preferredCommunicationMode == preferredCommunicationMode
      ensures this.tags == if tags.Some? then tags.value else []
    {
      this.name := name;
      this.phone := phone;
      this.email := email;
      this.telegram := telegram;
      this.github := github;
      this.preferredCommunicationMode := preferredCommunicationMode;
      this.tags := [];
      new;
      if tags.Some? {
        this.tags := this.tags + tags.value;
      }
    }

    /** Storing a person: each field's value, the mode's name, and one stored tag per tag (in the
        set's iteration order, which is unspecified). */
    constructor FromPerson(source: Person, api: ModelApi)
      ensures name == Some(source.name.fullName) && phone == Some(source.phone.value)
      ensures email == source.email.value && telegram == source.telegram.value
      ensures github == source.github.value
      ensures preferredCommunicationMode == Some(ModeName(source.preferredMode))
      ensures exists order :: IsOrdering(order, source.tags) && AdaptedInOrder(tags, order, api)
      ensures |tags| == |source.tags|
      ensures forall x :: x in tags <==> exists t :: t in source.tags && x == api.adaptTag(t)
    {
      name := Some(source.name.fullName);
      phone := Some(source.phone.value);
      email := source.email.value;
      telegram := source.telegram.value;
      github := source.github.value;
      preferredCommunicationMode := Some(ModeName(source.preferredMode));
      var adapted, order := AdaptTags(source.tags, api);
      AdaptedMembers(adapted, order, source.tags, api);
      tags := adapted;
    }

    function Snapshot(): (p: StoredPerson)
      reads this
    {
      StoredPerson(name, phone, email, telegram, github, preferredCommunicationMode, tags)
    }

    /** `getAvailableModes` */
    method GetAvailableModes() returns (modes: set<PreferredCommunicationMode>)
      ensures modes == AvailableModes(email, telegram, github)
    {
      modes := {};
      modes := modes + {PHONE};
      var hasEmail := HasText(email);
      var hasTelegram := HasText(telegram);
      var hasGithub := HasText(github);
      if hasEmail {
        modes := modes + {EMAIL};
      }
      if hasTelegram {
        modes := modes + {TELEGRAM};
      }
      if hasGithub {
        modes := modes + {GITHUB};
      }
    }

    /** `toModelType` */
    method ToModelType(api: ModelApi) returns (r: Result<Person, PersonError>)
      ensures r == ToModel(Snapshot(), api)
    {
      var personTags: seq<Tag> := [];
      var i := 0;
      while i < |tags|
        invariant 0 <= i <= |tags|
        invariant |personTags| == i
        invariant forall j :: 0 <= j < i ==> api.tagToModel(tags[j]) == Some(personTags[j])
      {
        var converted := api.tagToModel(tags[i]);
        if converted.None? {
          assert FirstInvalidTagAt(tags, api, i);
          ghost var k: nat :| FirstInvalidTagAt(tags, api, k) && ConvertTags(tags, api).error == InvalidTag(tags[k]);
          FirstInvalidTagUnique(tags, api, i, k);
          return Err(InvalidTag(tags[i]));
        }
        personTags := personTags + [converted.value];
        i := i + 1;
      }
      assert personTags == ConvertTags(tags, api).value;

      if name.None? {
        return Err(MissingField(NameClassName));
      }
      if !api.isValidName(name.value) {
        return Err(NameConstraints);
      }
      var modelName := Name(name.value);

      if phone.None? {
        return Err(MissingField(PhoneClassName));
      }
      if !api.isValidPhone(phone.value) {
        return Err(PhoneConstraints);
      }
      var modelPhone := Phone(phone.value);

      if !api.isValidEmail(email) {
        return Err(EmailConstraints);
      }
      if !api.isValidTelegram(telegram) {
        return Err(TelegramConstraints);
      }
      if !api.isValidGithub(github) {
        return Err(GithubConstraints);
      }
      var modelTags := set t | t in personTags;

      var availableModes := GetAvailableModes();
      var allowNone := true;
      if !api.isValidMode(preferredCommunicationMode, availableModes, allowNone) {
        return Err(ModeConstraints);
      }
      var modelPreferredMode := api.modeOf(preferredCommunicationMode);
      return Ok(Person(modelName, modelPhone, Email(email), Telegram(telegram), Github(github),
                       modelPreferredMode, modelTags));
    }
  }
}

=== FILE: link_launcher.dfy ===
/**
 * `ApplicationLinkLauncher`: builds a mail, Telegram or GitHub link from an identifier, parses it
 * as a URI and hands it to the desktop's browser, folding the checked failures into one
 * `ApplicationLinkResult`.
 */
module LinkLauncher {
  import opened Wrappers
  import opened JavaText
  import opened Uris
  import opened LinkResults

  datatype ApplicationType = EMAIL | TELEGRAM | GITHUB

  /** The enum constant's name, which is what `%s` prints for it. */
  function TypeName(t: ApplicationType): (name: string)
  {
    match t
    case EMAIL => "EMAIL"
    case TELEGRAM => "TELEGRAM"
    case GITHUB => "GITHUB"
  }

  const LaunchEmailPrefix := "mailto:"
  const LaunchTelegramPrefix := "https://t.me/"
  const LaunchGithubPrefix := "http://github.com/"

  const MessageSuccess := "Launched %s successfully."
  const MessageFailure := "Failed to launch %s."

  function Prefix(t: ApplicationType): (prefix: string)
  {
    match t
    case EMAIL => LaunchEmailPrefix
    case TELEGRAM => LaunchTelegramPrefix
    case GITHUB => LaunchGithubPrefix
  }

  /** The link `launchEmail`, `launchTelegram` and `launchGithub` pass on: the type's prefix
      followed by the identifier, with no validation. */
  function BuildLink(t: ApplicationType, id: string): (link: string)
    ensures |link| == |Prefix(t)| + |id|
    ensures link[..|Prefix(t)|] == Prefix(t) && link[|Prefix(t)|..] == id
  {
    Prefix(t) + id
  }

  /** The application type and the identifier can both be read back from a built link: no two
      prefixes start alike, so no link is built two ways. */
  lemma BuildLinkInjective(t1: ApplicationType, id1: string, t2: ApplicationType, id2: string)
    requires BuildLink(t1, id1) == BuildLink(t2, id2)
    ensures t1 == t2 && id1 == id2
  {
    var link := BuildLink(t1, id1);
    assert t1 == t2 by {
      assert link[0] == Prefix(t1)[0] == Prefix(t2)[0];
      assert link[4] == Prefix(t1)[4] == Prefix(t2)[4];
    }
    assert id1 == link[|Prefix(t1)|..] == id2;
  }

  /** The scheme of each prefix, and what follows its ':'. */
  function PrefixScheme(t: ApplicationType): (scheme: string)
  {
    match t
    case EMAIL => "mailto"
    case TELEGRAM => "https"
    case GITHUB => "http"
  }

  function PrefixPath(t: ApplicationType): (path: string)
  {
    match t
    case EMAIL => ""
    case TELEGRAM => "//t.me/"
    case GITHUB => "//github.com/"
  }

  /** Each prefix is a scheme name, a ':', and (for the web links) a "//" authority and a path. */
  lemma PrefixShape(t: ApplicationType)
    ensures Prefix(t) == PrefixScheme(t) + ":" + PrefixPath(t)
    ensures IsScheme(PrefixScheme(t)) && PlainPath(PrefixPath(t))
    ensures PrefixPath(t) == [] <==> t == EMAIL
    ensures t != EMAIL ==> |PrefixPath(t)| > 2 && PrefixPath(t)[0] == '/'
  {
    PrefixSplits(t);
    SchemeWellFormed(t);
    if t == TELEGRAM {
      WebPathPlain("t.me");
    } else if t == GITHUB {
      WebPathPlain("github.com");
    }
  }

  lemma PrefixSplits(t: ApplicationType)
    ensures Prefix(t) == PrefixScheme(t) + ":" + PrefixPath(t)
  {
  }

  lemma SchemeWellFormed(t: ApplicationType)
    ensures IsScheme(PrefixScheme(t))
  {
  }

  /** "//" + host + "/" for a host of letters and dots. */
  lemma WebPathPlain(host: string)
    requires forall j :: 0 <= j < |host| ==> IsAlpha(host[j]) || host[j] == '.'
    ensures PlainPath("//" + host + "/")
  {
    var path := "//" + host + "/";
    forall j | 0 <= j < |path| ensures IsPathChar(path[j]) {
      if 2 <= j < |path| - 1 {
        assert path[j] == host[j - 2];
      }
    }
  }

  /** A link built from an identifier of path characters parses, except that a mail link needs a
      non-empty address (and one that is not just "//"). */
  lemma BuiltLinkParses(t: ApplicationType, id: string)
    requires AllPath(id)
    requires t == EMAIL ==> id != [] && id != "//"
    ensures ParsesAsUri(BuildLink(t, id))
  {
    PrefixShape(t);
    var path := PrefixPath(t);
    if t != EMAIL {
      assert (path + id)[0] == '/' && |path + id| > 2;
    }
    PrefixedUriParses(PrefixScheme(t), path, id);
  }

  /** A mail address that does not start with '/' and holds no '#' is an opaque part: the link
      parses exactly when the address is non-empty and made of URI characters, brackets included. */
  lemma MailLinkParses(id: string)
    requires id == [] || id[0] != '/'
    requires forall j :: 0 <= j < |id| ==> id[j] != '#'
    ensures ParsesAsUri(BuildLink(EMAIL, id)) <==> id != [] && AllUric(id)
  {
    PrefixSplits(EMAIL);
    SchemeWellFormed(EMAIL);
    assert BuildLink(EMAIL, id) == PrefixScheme(EMAIL) + ":" + id;
    OpaqueUriParses(PrefixScheme(EMAIL), id);
  }

  /** "mailto:[x]" is a URI: with a desktop that browses it, `launchEmail("[x]")` succeeds. */
  lemma BracketedMailLaunches()
    ensures ParsesAsUri(BuildLink(EMAIL, "[x]"))
    ensures Launch(BuildLink(EMAIL, "[x]"), EMAIL, Some(AlwaysBrowses))
            == Returned(ApplicationLinkResult(true, SuccessMessage(EMAIL)))
  {
    var id := "[x]";
    assert id[0] == '[' && id[1] == 'x' && id[2] == ']';
    assert AllUric(id);
    MailLinkParses(id);
  }

  /** A web link whose identifier holds '[' or ']' and no query or fragment is rejected: in a path
      the brackets are not allowed. */
  lemma WebLinkBracketRejected(t: ApplicationType, id: string, k: nat)
    requires t != EMAIL
    requires forall j :: 0 <= j < |id| ==> id[j] != '#' && id[j] != '?'
    requires k < |id| && id[k] in {'[', ']'}
    ensures !ParsesAsUri(BuildLink(t, id))
  {
    PrefixShape(t);
    PrefixedBracketRejected(PrefixScheme(t), PrefixPath(t), id, k);
  }

  /** An empty address gives the bare "mailto:", which has nothing after its scheme. */
  lemma EmptyEmailUnparsable()
    ensures !ParsesAsUri(BuildLink(EMAIL, ""))
  {
    PrefixShape(EMAIL);
    assert BuildLink(EMAIL, "") == PrefixScheme(EMAIL) + ":";
    BareSchemeRejected(PrefixScheme(EMAIL));
  }

  function SuccessMessage(t: ApplicationType): (msg: string) { Format(MessageSuccess, TypeName(t)) }

  function FailureMessage(t: ApplicationType): (msg: string) { Format(MessageFailure, TypeName(t)) }

  lemma SuccessTemplateFills(arg: string)
    ensures Format(MessageSuccess, arg) == "Launched " + arg + " successfully."
  {
    FormatFillsTemplate(MessageSuccess, "Launched ", " successfully.", arg);
  }

  lemma FailureTemplateFills(arg: string)
    ensures Format(MessageFailure, arg) == "Failed to launch " + arg + "."
  {
    FormatFillsTemplate(MessageFailure, "Failed to launch ", ".", arg);
  }

  /** The two messages, spelled out: each names the type and nothing else. */
  lemma MessagesSpelledOut(t: ApplicationType)
    ensures SuccessMessage(t) == "Launched " + TypeName(t) + " successfully."
    ensures FailureMessage(t) == "Failed to launch " + TypeName(t) + "."
  {
    SuccessTemplateFills(TypeName(t));
    FailureTemplateFills(TypeName(t));
  }

  lemma SpelledMessagesDistinct(a: string, b: string)
    ensures "Launched " + a + " successfully." != "Failed to launch " + b + "."
    ensures "Launched " + a + " successfully." == "Launched " + b + " successfully." ==> a == b
    ensures "Failed to launch " + a + "." == "Failed to launch " + b + "." ==> a == b
  {
    var s1, s2 := "Launched " + a + " successfully.", "Launched " + b + " successfully.";
    assert s1[0] == 'L';
    if s1 == s2 {
      assert a == s1[9..9 + |a|] && b == s2[9..9 + |b|];
    }
    var f1, f2 := "Failed to launch " + a + ".", "Failed to launch " + b + ".";
    assert f1[0] == 'F';
    if f1 == f2 {
      assert a == f1[17..17 + |a|] && b == f2[17..17 + |b|];
    }
  }

  /** A message tells success from failure and names exactly one type. */
  lemma MessagesDistinct(t1: ApplicationType, t2: ApplicationType)
    ensures SuccessMessage(t1) != FailureMessage(t2)
    ensures SuccessMessage(t1) == SuccessMessage(t2) ==> t1 == t2
    ensures FailureMessage(t1) == FailureMessage(t2) ==> t1 == t2
  {
    MessagesSpelledOut(t1);
    MessagesSpelledOut(t2);
    SpelledMessagesDistinct(TypeName(t1), TypeName(t2));
  }

  /** What `Desktop.browse` does: return normally (`Browsed`), or throw an IOException or an
      UnsupportedOperationException. */
  datatype BrowseOutcome = Browsed | IOError | UnsupportedOp

  /** `launchApplicationLink` either returns a result or lets an UnsupportedOperationException
      out; no other outcome is possible. */
  datatype LaunchOutcome = Returned(result: ApplicationLinkResult) | ThrowsUnsupportedOperation

  /** `parseToUri`: `new URI(link)`, which throws URISyntaxException unless the link parses. */
  function ParseToUri(link: string): (r: Result<Uri, string>)
    ensures r.Ok? <==> ParsesAsUri(link)
    ensures r.Ok? ==> r.value.text == link
  {
    if ParsesAsUri(link) then Ok(Uri(link)) else Err("URISyntaxException")
  }

  /** `openLink` when the desktop handle answers `browse` with `desktop`: no handle throws an
      IOException. */
  function OpenOutcome(desktop: Option<Uri -> BrowseOutcome>, uri: Uri): (o: BrowseOutcome)
  {
    match desktop
    case None => IOError
    case Some(browse) => browse(uri)
  }

  /** `launchApplicationLink(link, t)` against a desktop handle whose `browse` answers as `desktop`
      does. */
  function Launch(link: string, t: ApplicationType, desktop: Option<Uri -> BrowseOutcome>): (o: LaunchOutcome)
    // only an UnsupportedOperationException from browse escapes
    ensures o.ThrowsUnsupportedOperation? <==>
              ParsesAsUri(link) && desktop.Some? && desktop.value(Uri(link)) == UnsupportedOp
    // success exactly when the link parses and browse returns normally
    ensures o.Returned? ==>
              (o.result.success <==> ParsesAsUri(link) && desktop.Some? && desktop.value(Uri(link)) == Browsed)
    // the message depends on the outcome and the type only
    ensures o.Returned? ==>
              o.result.message == if o.result.success then SuccessMessage(t) else FailureMessage(t)
  {
    match ParseToUri(link)
    case Err(_) => Returned(ApplicationLinkResult(false, FailureMessage(t)))
    case Ok(uri) =>
      match OpenOutcome(desktop, uri)
      case Browsed => Returned(ApplicationLinkResult(true, SuccessMessage(t)))
      case IOError => Returned(ApplicationLinkResult(false, FailureMessage(t)))
      case UnsupportedOp => ThrowsUnsupportedOperation
  }

  /** A link that does not parse fails whatever the desktop would have done. */
  lemma UnparsableLinkFails(link: string, t: ApplicationType, desktop: Option<Uri -> BrowseOutcome>)
    requires !ParsesAsUri(link)
    ensures Launch(link, t, desktop) == Returned(ApplicationLinkResult(false, FailureMessage(t)))
  {
  }

  /** Without a desktop handle every launch fails, and never throws. */
  lemma NoDesktopFails(link: string, t: ApplicationType)
    ensures Launch(link, t, None) == Returned(ApplicationLinkResult(false, FailureMessage(t)))
  {
  }

  /** The launcher test's malformed link gives the GitHub failure message. */
  lemma IllegalLinkGivesFailureMessage(desktop: Option<Uri -> BrowseOutcome>)
    ensures Launch("ht!tp://invalid-uri", GITHUB, desktop)
            == Returned(ApplicationLinkResult(false, FailureMessage(GITHUB)))
  {
    IllegalSchemeCharacterRejected();
  }

  /** The URIs a launch of `link` hands to `browse`: the parsed link once, or nothing when the
      link does not parse. */
  function BrowseCalls(link: string): (calls: seq<Uri>)
    ensures |calls| <= 1
    ensures calls != [] <==> ParsesAsUri(link)
    ensures forall u :: u in calls ==> u.text == link
  {
    if ParsesAsUri(link) then [Uri(link)] else []
  }

  /** `Desktop`: the host's desktop integration. `respond` is how the host answers `browse`
      (a foreign call); `browsed` records every URI `browse` has been called with. */
  class Desktop {
    const respond: Uri -> BrowseOutcome
    var browsed: seq<Uri>

    constructor(respond: Uri -> BrowseOutcome)
      ensures this.respond == respond && browsed == []
    {
      this.respond := respond;
      browsed := [];
    }

    method Browse(uri: Uri) returns (o: BrowseOutcome)
      modifies this
      ensures o == respond(uri)
      ensures browsed == old(browsed) + [uri]
    {
      browsed := browsed + [uri];
      o := respond(uri);
    }
  }

  /** The launcher's static state: the desktop handle every launch uses. */
  class ApplicationLinkLauncher {
    var desktop: Desktop?

    /** The static initialiser: the host's desktop when the host supports one, else no handle. */
    constructor(desktopSupported: bool, hostDesktop: Desktop)
      ensures desktop == if desktopSupported then hostDesktop else null
    {
      desktop := if desktopSupported then hostDesktop else null;
    }

    /** How the current handle answers `browse`, if there is one. */
    function Handle(): (h: Option<Uri -> BrowseOutcome>)
      reads this
    {
      if desktop == null then None else Some(desktop.respond)
    }

    /** `setDesktop`: later launches use `d`; no desktop's browse record changes. */
    method SetDesktop(d: Desktop?)
      modifies this
      ensures desktop == d
    {
      desktop := d;
    }

    /** `openLink`: browse through the handle, or throw an IOException when there is none. */
    method OpenLink(uri: Uri) returns (o: BrowseOutcome)
      modifies desktop
      ensures o == OpenOutcome(Handle(), uri)
      ensures desktop != null ==> desktop.browsed == old(desktop.browsed) + [uri]
    {
      if desktop != null {
        o := desktop.Browse(uri);
      } else {
        o := IOError;
      }
    }

    /** `launchApplicationLink`: parse first, then open; browse is called once, on the parsed
        link, and only when the link parses. */
    method LaunchApplicationLink(link: string, t: ApplicationType) returns (o: LaunchOutcome)
      modifies desktop
      ensures o == Launch(link, t, Handle())
      ensures desktop != null ==>
                desktop.browsed == old(desktop.browsed) + BrowseCalls(link)
    {
      var parsed := ParseToUri(link);
      if parsed.Err? {
        return Returned(ApplicationLinkResult(false, FailureMessage(t)));
      }
      var outcome := OpenLink(parsed.value);
      match outcome
      case Browsed => o := Returned(ApplicationLinkResult(true, SuccessMessage(t)));
      case IOError => o := Returned(ApplicationLinkResult(false, FailureMessage(t)));
      case UnsupportedOp => o := ThrowsUnsupportedOperation;
    }

    /** A null email is concatenated as "null". */
    method LaunchEmail(email: Option<string>) returns (o: LaunchOutcome)
      modifies desktop
      ensures o == Launch(BuildLink(EMAIL, Rendered(email)), EMAIL, Handle())
      ensures desktop != null ==> desktop.browsed == old(desktop.browsed) + BrowseCalls(BuildLink(EMAIL, Rendered(email)))
    {
      o := LaunchApplicationLink(LaunchEmailPrefix + Rendered(email), EMAIL);
    }

    /** A null handle is concatenated as "null". */
    method LaunchTelegram(handle: Option<string>) returns (o: LaunchOutcome)
      modifies desktop
      ensures o == Launch(BuildLink(TELEGRAM, Rendered(handle)), TELEGRAM, Handle())
      ensures desktop != null ==> desktop.browsed == old(desktop.browsed) + BrowseCalls(BuildLink(TELEGRAM, Rendered(handle)))
    {
      o := LaunchApplicationLink(LaunchTelegramPrefix + Rendered(handle), TELEGRAM);
    }

    /** A null username is concatenated as "null". */
    method LaunchGithub(username: Option<string>) returns (o: LaunchOutcome)
      modifies desktop
      ensures o == Launch(BuildLink(GITHUB, Rendered(username)), GITHUB, Handle())
      ensures desktop != null ==> desktop.browsed == old(desktop.browsed) + BrowseCalls(BuildLink(GITHUB, Rendered(username)))
    {
      o := LaunchApplicationLink(LaunchGithubPrefix + Rendered(username), GITHUB);
    }
  }

  /** A desktop whose `browse` always returns normally, as the launcher tests' mock does. */
  function AlwaysBrowses(uri: Uri): (o: BrowseOutcome) { Browsed }

  /** A client in the manner of the launcher's tests: with a desktop that browses successfully, a
      Telegram launch succeeds and browses the link once. */
  method TelegramClient(handle: string) returns (o: LaunchOutcome, browsed: seq<Uri>)
    requires AllPath(handle)
    ensures o == Returned(ApplicationLinkResult(true, SuccessMessage(TELEGRAM)))
    ensures browsed == [Uri(BuildLink(TELEGRAM, handle))]
  {
    var mock := new Desktop(AlwaysBrowses);
    var launcher := new ApplicationLinkLauncher(false, mock);
    launcher.SetDesktop(mock);
    BuiltLinkParses(TELEGRAM, handle);
    o := launcher.LaunchTelegram(Some(handle));
    browsed := mock.browsed;
  }

  /** After `setDesktop(null)` a Telegram launch, null handle included, fails and browses nothing. */
  method TelegramClientWithoutDesktop(handle: Option<string>) returns (o: LaunchOutcome, browsed: seq<Uri>)
    ensures o == Returned(ApplicationLinkResult(false, FailureMessage(TELEGRAM)))
    ensures browsed == []
  {
    var mock := new Desktop(AlwaysBrowses);
    var launcher := new ApplicationLinkLauncher(true, mock);
    launcher.SetDesktop(null);
    o := launcher.LaunchTelegram(handle);
    browsed := mock.browsed;
  }

  /** `launchEmail(null)` builds "mailto:null", which parses: with a desktop that browses it the
      launch succeeds. */
  lemma NullEmailLaunches()
    ensures BuildLink(EMAIL, Rendered(None)) == "mailto:null"
    ensures Launch(BuildLink(EMAIL, Rendered(None)), EMAIL, Some(AlwaysBrowses))
            == Returned(ApplicationLinkResult(true, SuccessMessage(EMAIL)))
  {
    var id := Rendered(None);
    assert forall j :: 0 <= j < |id| ==> IsPathChar(id[j]);
    PlainPathIsPath(id);
    BuiltLinkParses(EMAIL, id);
  }

  /**
   * A link given straight to the launcher with a bracketed IPv6 host fails here,
   * since the model checks an authority as path characters.
   */
  lemma BracketedHostFails()
    ensures Launch("http://[::1]/", GITHUB, Some(AlwaysBrowses))
            == Returned(ApplicationLinkResult(false, FailureMessage(GITHUB)))
  {
    var h := "//[::1]/";
    assert "http://[::1]/" == PrefixScheme(GITHUB) + ":" + h;
    SchemeWellFormed(GITHUB);
    assert forall j :: 0 <= j < |h| ==> h[j] != '#' && h[j] != '?';
    PathBracketRejected(PrefixScheme(GITHUB), h, 2);
    UnparsableLinkFails("http://[::1]/", GITHUB, Some(AlwaysBrowses));
  }
}

=== FILE: link_results.dfy ===
/** The immutable outcome of one application-link launch. */
module LinkResults {

  /**
   * `ApplicationLinkResult`: a success flag and a user-facing message, both fixed at construction.
   * A datatype value cannot be changed after it is built, which is what the two final fields give.
   */
  datatype ApplicationLinkResult = ApplicationLinkResult(success: bool, message: string)
  {
    function IsSuccess(): (b: bool) { success }

    function GetMessage(): (msg: string) { message }
  }

  /** The constructor accepts every flag and every message, and the getters hand back exactly what
      it was given. */
  lemma GettersReturnConstructorArguments(success: bool, message: string)
    ensures ApplicationLinkResult(success, message).IsSuccess() == success
    ensures ApplicationLinkResult(success, message).GetMessage() == message
  {
  }
}

=== FILE: person_model.dfy ===
/**
 * The model classes `JsonAdaptedPerson` converts to and from. Their own source
 * (Name, Phone, Email, Telegram, Github, PreferredCommunicationMode, Tag, JsonAdaptedTag) is not
 * part of this model: their values are records here, and the behaviour of their validators and
 * converters is a `ModelApi` handed to every operation that needs it, so that every property is
 * proved whatever those validators accept.
 */
module PersonModel {
  import opened Wrappers

  datatype Name = Name(fullName: string)
  datatype Phone = Phone(value: string)
  /** Email, Telegram and Github are optional: their value may be null. */
  datatype Email = Email(value: Option<string>)
  datatype Telegram = Telegram(value: Option<string>)
  datatype Github = Github(value: Option<string>)

  /** The preferred way of contacting a person. PHONE, EMAIL, TELEGRAM and GITHUB are the modes a
      person can have; NONE stands for "no preference", which `allowNone` admits. */
  datatype PreferredCommunicationMode = PHONE | EMAIL | TELEGRAM | GITHUB | NONE

  /** The enum constant's `name()`. */
  function ModeName(m: PreferredCommunicationMode): (name: string)
  {
    match m
    case PHONE => "PHONE"
    case EMAIL => "EMAIL"
    case TELEGRAM => "TELEGRAM"
    case GITHUB => "GITHUB"
    case NONE => "NONE"
  }

  datatype Tag = Tag(tagName: string)

  /** The stored form of a tag. */
  datatype JsonAdaptedTag = JsonAdaptedTag(tagName: string)

  datatype Person = Person(name: Name, phone: Phone, email: Email, telegram: Telegram, github: Github,
                           preferredMode: PreferredCommunicationMode, tags: set<Tag>)

  /**
   * What the model classes answer:
   * `Name.isValidName`, `Phone.isValidPhone`, `Email.isValidEmail`, `Telegram.isValidTelegram`,
   * `Github.isValidGithub`, `PreferredCommunicationMode.isValidMode(mode, available, allowNone)`,
   * `PreferredCommunicationMode.of`, `new JsonAdaptedTag(tag)` and `JsonAdaptedTag.toModelType`
   * (`None` when it throws IllegalValueException).
   */
  datatype ModelApi = ModelApi(
    isValidName: string -> bool,
    isValidPhone: string -> bool,
    isValidEmail: Option<string> -> bool,
    isValidTelegram: Option<string> -> bool,
    isValidGithub: Option<string> -> bool,
    isValidMode: (Option<string>, set<PreferredCommunicationMode>, bool) -> bool,
    modeOf: Option<string> -> PreferredCommunicationMode,
    adaptTag: Tag -> JsonAdaptedTag,
    tagToModel: JsonAdaptedTag -> Option<Tag>)
}

=== FILE: uris.dfy ===
/**
 * URI syntax as `new java.net.URI(String)` accepts it: the generic grammar of RFC 2396,
 * Appendix A, with the changes java.net.URI makes to it ('[' and ']' reserved as in RFC 2732,
 * unescaped visible non-ASCII characters, an empty authority in front of a path, query or
 * fragment). An authority is checked as path characters, so the bracketed IPv6 host form of
 * RFC 2732 is not accepted here.
 */
module Uris {

  /** A parsed `java.net.URI`; its string form is the text it was parsed from. */
  datatype Uri = Uri(text: string)

  predicate IsAlpha(c: char) { 'a' <= c <= 'z' || 'A' <= c <= 'Z' }
  predicate IsDigit(c: char) { '0' <= c <= '9' }
  predicate IsHex(c: char) { IsDigit(c) || 'a' <= c <= 'f' || 'A' <= c <= 'F' }

  /** reserved = ";" | "/" | "?" | ":" | "@" | "&" | "=" | "+" | "$" | "," | "[" | "]" */
  predicate IsReserved(c: char) { c in ";/?:@&=+$,[]" }

  /** unreserved = alphanum | mark, mark = "-" | "_" | "." | "!" | "~" | "*" | "'" | "(" | ")" */
  predicate IsUnreserved(c: char) { IsAlpha(c) || IsDigit(c) || c in "-_.!~*'()" }

  /** The unescaped characters of a path: pchar = unreserved | ":" | "@" | "&" | "=" | "+" | "$" | ","
      together with the separators ";" and "/". */
  predicate IsPathChar(c: char) { IsUnreserved(c) || c in ";/:@&=+$," }

  /** `Character.isISOControl` */
  predicate IsIsoControl(c: char) { c <= '\U{001F}' || '\U{007F}' <= c <= '\U{009F}' }

  /** `Character.isSpaceChar`: the Unicode space, line and paragraph separators. */
  predicate IsSpaceChar(c: char)
  {
    c == ' ' || c == '\U{00A0}' || c == '\U{1680}' || '\U{2000}' <= c <= '\U{200A}' ||
    c == '\U{2028}' || c == '\U{2029}' || c == '\U{202F}' || c == '\U{205F}' || c == '\U{3000}'
  }

  /** A visible non-ASCII character, which java.net.URI lets through unescaped. */
  predicate IsOther(c: char) { c as int >= 0x80 && !IsSpaceChar(c) && !IsIsoControl(c) }

  /** uric = reserved | unreserved | escaped, escaped = "%" hex hex; plus the other characters. */
  predicate AllUric(s: string)
    decreases |s|
  {
    if s == [] then true
    else if s[0] == '%' then |s| >= 3 && IsHex(s[1]) && IsHex(s[2]) && AllUric(s[3..])
    else (IsReserved(s[0]) || IsUnreserved(s[0]) || IsOther(s[0])) && AllUric(s[1..])
  }

  /** path characters, escapes and other characters: what `java.net.URI` accepts in a path. */
  predicate AllPath(s: string)
    decreases |s|
  {
    if s == [] then true
    else if s[0] == '%' then |s| >= 3 && IsHex(s[1]) && IsHex(s[2]) && AllPath(s[3..])
    else (IsPathChar(s[0]) || IsOther(s[0])) && AllPath(s[1..])
  }

  /** scheme = alpha *( alpha | digit | "+" | "-" | "." ) */
  predicate IsScheme(s: string)
  {
    s != [] && IsAlpha(s[0]) &&
    forall i :: 1 <= i < |s| ==> IsAlpha(s[i]) || IsDigit(s[i]) || s[i] in "+-."
  }

  /** The index of the first character of `s` in `stops`, or `|s|` when there is none. */
  function ScanTo(s: string, stops: set<char>): (i: nat)
    ensures i <= |s|
    ensures forall j :: 0 <= j < i ==> s[j] !in stops
    ensures i < |s| ==> s[i] in stops
  {
    if s == [] || s[0] in stops then 0 else 1 + ScanTo(s[1..], stops)
  }

  /** The whole reference: `[ absoluteURI | relativeURI ] [ "#" fragment ]`. */
  predicate ParsesAsUri(s: string)
  {
    var h := ScanTo(s, {'#'});
    (h < |s| ==> AllUric(s[h + 1..])) && ParsesBeforeFragment(s[..h], h < |s|)
  }

  /** An absolute URI when a ':' comes before any '/', '?' (the scheme must then be well
      formed and non-empty), a relative reference otherwise. */
  predicate ParsesBeforeFragment(b: string, hasFragment: bool)
  {
    var c := ScanTo(b, {':', '/', '?'});
    if c < |b| && b[c] == ':' then
      0 < c && IsScheme(b[..c]) && ParsesSchemeSpecific(b[c + 1..], hasFragment)
    else
      ParsesHierarchical(b, hasFragment)
  }

  /** The part after the scheme must not be empty: hierarchical when it starts with '/',
      opaque otherwise. */
  predicate ParsesSchemeSpecific(ssp: string, hasFragment: bool)
  {
    ssp != [] && if ssp[0] == '/' then ParsesHierarchical(ssp, hasFragment) else AllUric(ssp)
  }

  /** A path, then optionally '?' and a query; a "//" with nothing after it lacks its authority. */
  predicate ParsesHierarchical(h: string, hasFragment: bool)
  {
    var q := ScanTo(h, {'?'});
    AllPath(h[..q]) && (q < |h| ==> AllUric(h[q + 1..])) && (h == "//" ==> hasFragment)
  }

  lemma {:induction false} AllPathAppend(a: string, b: string)
    requires AllPath(a) && AllPath(b)
    ensures AllPath(a + b)
    decreases |a|
  {
    if a == [] {
      assert a + b == b;
    } else {
      var k := if a[0] == '%' then 3 else 1;
      var ab := a + b;
      assert ab[..k] == a[..k];
      assert ab[k..] == a[k..] + b;
      AllPathAppend(a[k..], b);
    }
  }

  /** The scan stops exactly at the first character in `stops`. */
  lemma ScanToAt(s: string, stops: set<char>, k: nat)
    requires k <= |s|
    requires forall j :: 0 <= j < k ==> s[j] !in stops
    requires k < |s| ==> s[k] in stops
    ensures ScanTo(s, stops) == k
  {
  }

  /** Path characters only: no escapes, nothing non-ASCII. */
  predicate PlainPath(s: string)
  {
    forall j :: 0 <= j < |s| ==> IsPathChar(s[j])
  }

  lemma {:induction false} PlainPathIsPath(s: string)
    requires PlainPath(s)
    ensures AllPath(s)
    decreases |s|
  {
    if s != [] {
      assert s[0] != '%';
      PlainPathIsPath(s[1..]);
    }
  }

  /** Whatever a path accepts, the opaque part, the query and the fragment accept too. */
  lemma {:induction false} AllPathIsUric(s: string)
    requires AllPath(s)
    ensures AllUric(s)
    decreases |s|
  {
    if s != [] {
      var k := if s[0] == '%' then 3 else 1;
      AllPathIsUric(s[k..]);
    }
  }

  /** A path holds no '?', '[', ']' or '#', not even inside an escape. */
  lemma {:induction false} AllPathExcludes(s: string)
    requires AllPath(s)
    ensures forall j :: 0 <= j < |s| ==> s[j] !in {'?', '[', ']', '#'}
    decreases |s|
  {
    if s != [] {
      var k := if s[0] == '%' then 3 else 1;
      AllPathExcludes(s[k..]);
      forall j | k <= j < |s| ensures s[j] !in {'?', '[', ']', '#'} { assert s[j] == s[k..][j - k]; }
    }
  }

  lemma {:induction false} AllUricHasNoHash(s: string)
    requires AllUric(s)
    ensures forall j :: 0 <= j < |s| ==> s[j] != '#'
    decreases |s|
  {
    if s != [] {
      var k := if s[0] == '%' then 3 else 1;
      AllUricHasNoHash(s[k..]);
      forall j | k <= j < |s| ensures s[j] != '#' { assert s[j] == s[k..][j - k]; }
    }
  }

  /** A well-formed part after the scheme holds no '#'. */
  lemma SchemeSpecificHasNoHash(ssp: string, hasFragment: bool)
    requires ParsesSchemeSpecific(ssp, hasFragment)
    ensures forall j :: 0 <= j < |ssp| ==> ssp[j] != '#'
  {
    if ssp[0] == '/' {
      var q := ScanTo(ssp, {'?'});
      AllPathExcludes(ssp[..q]);
      forall j | 0 <= j < |ssp| ensures ssp[j] != '#' {
        if j < q {
          assert ssp[j] == ssp[..q][j];
        } else if j > q {
          AllUricHasNoHash(ssp[q + 1..]);
          assert ssp[j] == ssp[q + 1..][j - q - 1];
        }
      }
    } else {
      AllUricHasNoHash(ssp);
    }
  }

  /** Scheme characters are none of the delimiters '#', ':', '/', '?'. */
  lemma SchemeHasNoDelimiter(scheme: string)
    requires IsScheme(scheme)
    ensures forall j :: 0 <= j < |scheme| ==> scheme[j] !in {'#', ':', '/', '?'}
  {
    forall j | 0 <= j < |scheme| ensures scheme[j] !in {'#', ':', '/', '?'} {
      if j > 0 {
        assert IsAlpha(scheme[j]) || IsDigit(scheme[j]) || scheme[j] in "+-.";
      }
    }
  }

  /** With a well-formed scheme and no fragment, `scheme:ssp` is a URI exactly when the part after
      the ':' is well formed. */
  lemma AbsoluteUriFromParts(scheme: string, ssp: string)
    requires IsScheme(scheme)
    requires forall j :: 0 <= j < |ssp| ==> ssp[j] != '#'
    ensures ParsesAsUri(scheme + ":" + ssp) <==> ParsesSchemeSpecific(ssp, false)
  {
    var s := scheme + ":" + ssp;
    var c := |scheme|;
    SchemeHasNoDelimiter(scheme);
    forall j | 0 <= j < |s| ensures s[j] != '#' {
      if j < c { assert s[j] == scheme[j]; }
      else if j > c { assert s[j] == ssp[j - c - 1]; }
    }
    forall j | 0 <= j < c ensures s[j] !in {':', '/', '?'} {
      assert s[j] == scheme[j];
    }
    assert s[..c] == scheme;
    assert s[c + 1..] == ssp;
    ScanToAt(s, {'#'}, |s|);
    assert s[..|s|] == s;
    ScanToAt(s, {':', '/', '?'}, c);
  }

  /** Path characters alone, other than a bare "//", are a well-formed part after a scheme. */
  lemma PathIsSchemeSpecific(ssp: string)
    requires AllPath(ssp) && ssp != [] && ssp != "//"
    ensures ParsesSchemeSpecific(ssp, false)
  {
    if ssp[0] == '/' {
      AllPathExcludes(ssp);
      ScanToAt(ssp, {'?'}, |ssp|);
      assert ssp[..|ssp|] == ssp;
    } else {
      AllPathIsUric(ssp);
    }
  }

  /** A scheme, a ':', a fixed path of plain path characters and then path characters make a URI,
      as long as something follows the ':' and it is not a bare "//". */
  lemma PrefixedUriParses(scheme: string, path: string, id: string)
    requires IsScheme(scheme) && PlainPath(path) && AllPath(id)
    requires path + id != [] && path + id != "//"
    ensures ParsesAsUri(scheme + ":" + path + id)
  {
    var ssp := path + id;
    assert ParsesSchemeSpecific(ssp, false) && forall j :: 0 <= j < |ssp| ==> ssp[j] != '#' by {
      PlainPathIsPath(path);
      AllPathAppend(path, id);
      PathIsSchemeSpecific(ssp);
      SchemeSpecificHasNoHash(ssp, false);
    }
    assert scheme + ":" + path + id == scheme + ":" + ssp;
    AbsoluteUriFromParts(scheme, ssp);
  }

  /** After a scheme, a part that does not start with '/' and holds no '#' is opaque: it is
      accepted exactly when it is non-empty and made of URI characters. */
  lemma OpaqueUriParses(scheme: string, ssp: string)
    requires IsScheme(scheme)
    requires ssp == [] || ssp[0] != '/'
    requires forall j :: 0 <= j < |ssp| ==> ssp[j] != '#'
    ensures ParsesAsUri(scheme + ":" + ssp) <==> ssp != [] && AllUric(ssp)
  {
    AbsoluteUriFromParts(scheme, ssp);
  }

  /** A fixed path of plain path characters starting with '/', followed by text with a '[' or ']'
      and no query or fragment, is rejected after a scheme. */
  lemma PrefixedBracketRejected(scheme: string, path: string, id: string, k: nat)
    requires IsScheme(scheme) && PlainPath(path) && path != [] && path[0] == '/'
    requires forall j :: 0 <= j < |id| ==> id[j] != '#' && id[j] != '?'
    requires k < |id| && id[k] in {'[', ']'}
    ensures !ParsesAsUri(scheme + ":" + path + id)
  {
    var h := path + id;
    forall j | 0 <= j < |h| ensures h[j] != '#' && h[j] != '?' {
      if j < |path| {
        assert IsPathChar(path[j]);
      } else {
        assert h[j] == id[j - |path|];
      }
    }
    assert h[|path| + k] == id[k];
    PathBracketRejected(scheme, h, |path| + k);
    assert scheme + ":" + path + id == scheme + ":" + h;
  }

  /** A '[' or ']' in the path of an absolute URI without query or fragment makes it rejected:
      brackets are reserved for an IPv6 host. */
  lemma PathBracketRejected(scheme: string, h: string, k: nat)
    requires IsScheme(scheme) && h != [] && h[0] == '/'
    requires forall j :: 0 <= j < |h| ==> h[j] != '#' && h[j] != '?'
    requires k < |h| && h[k] in {'[', ']'}
    ensures !ParsesAsUri(scheme + ":" + h)
  {
    AbsoluteUriFromParts(scheme, h);
    ScanToAt(h, {'?'}, |h|);
    assert h[..|h|] == h;
    if AllPath(h) {
      AllPathExcludes(h);
    }
  }

  /** A scheme followed by ':' and nothing else lacks its scheme-specific part. */
  lemma BareSchemeRejected(scheme: string)
    requires IsScheme(scheme)
    ensures !ParsesAsUri(scheme + ":")
  {
    var s := scheme + ":";
    SchemeHasNoDelimiter(scheme);
    forall j | 0 <= j < |s| - 1 ensures s[j] !in {'#', ':', '/', '?'} {
      assert s[j] == scheme[j];
    }
    ScanToAt(s, {'#'}, |s|);
    assert s[..|s|] == s;
    ScanToAt(s, {':', '/', '?'}, |s| - 1);
  }

  /** A string whose text before its first ':' is not a scheme name, where that ':' comes before
      any '/', '?' or '#', is rejected. */
  lemma IllegalSchemeRejected(s: string, c: nat)
    requires c < |s| && s[c] == ':'
    requires forall j :: 0 <= j < c ==> s[j] !in {'#', ':', '/', '?'}
    requires !IsScheme(s[..c])
    ensures !ParsesAsUri(s)
  {
    var h := ScanTo(s, {'#'});
    assert c < h;
    assert s[..h][..c] == s[..c];
    ScanToAt(s[..h], {':', '/', '?'}, c);
  }

  /** The malformed link of the launcher's tests: '!' may not occur in a scheme name. */
  lemma IllegalSchemeCharacterRejected()
    ensures !ParsesAsUri("ht!tp://invalid-uri")
  {
    var s := "ht!tp://invalid-uri";
    assert s[0] == 'h' && s[1] == 't' && s[2] == '!' && s[3] == 't' && s[4] == 'p' && s[5] == ':';
    assert !IsScheme(s[..5]) by { assert s[..5][2] == '!'; }
    IllegalSchemeRejected(s, 5);
  }
}

=== FILE: wrappers.dfy ===
/** Option and Result: the model's stand-ins for Java's null and for a checked exception. */
module Wrappers {

  /** A value that may be absent; `None` plays the role of Java's `null`. */
  datatype Option<+T> = None | Some(value: T)

  /** The outcome of an operation that either returns a value or throws a checked exception. */
  datatype Result<+T, +E> = Ok(value: T) | Err(error: E)
}
